=== FILE: README.md ===
# Packio envelope codec — a Dafny model

This project models the core of Packio, a header-only C++ library for
self-describing binary serialization. It covers two headers.

- `serializable.h` defines the envelope. `serialize` writes a 16-byte type
  signature, a 6-byte version record (three `uint16_t`) and then whatever the
  type's own body encoder writes. `Deserializer::deserialize` reads the
  22-byte header back. It then walks an ordered list of candidate types
  (`DeserializeHelper`) and hands the stream to the body decoder of the
  first candidate whose signature equals the one read. If no candidate
  matches, it fails with "unrecognised serializable". The same header holds
  `Version` with `operator>`, `operator==`, `compareVersion`, `to_string` and
  `parseVersion`.
- `compression.h` holds standalone primitives:
  - `readAll` and `writeAll`, which transfer an exact number of bytes;
  - the FNV-1a 64-bit checksum `fnv1a_64` and its alias `computeChecksum`;
  - the buffer handling around Zstd in `compressZstd` and `decompressZstd`.

The envelope that `serialize` writes has no compression flag, no size fields
and no checksum. The checksum and compression helpers are never called by
`serialize` or `Deserializer`. The model keeps them as separate primitives
and invents no framing that uses them.

Modelling choices:
- An input stream is its unread bytes plus its `good()` flag. An output
  stream is the bytes written so far plus its `good()` flag.
- A byte is an integer in 0..255. The checksum accumulator is `bv64`, so
  its `*` wraps modulo 2^64 exactly as `uint64_t` does.
- The compile-time candidate list is a runtime `seq` of (signature, body
  decoder) pairs. A body decoder returns its value together with the stream
  as it leaves it. The `std::variant` result is a value tagged with the
  position of the candidate that produced it, together with that stream.
  Only the value models the C++ result `U`. The index is the candidate's
  position in the list, which the model adds; it is not `std::variant::index()`,
  which follows the variant's declared order instead.
- The Zstd library is a `Backend` value passed as a parameter. Its fields
  stand for `ZSTD_createCCtx`, `ZSTD_compressBound`, `ZSTD_compress2` and
  `ZSTD_decompress`.
- Each type's `serializeBody` and `deserializeBody` are function parameters.

| file | module | models |
|---|---|---|
| errors.dfy | `Errors` | the thrown `std::runtime_error`s as an `Error` type, plus `Result` and `Option` |
| streams.dfy | `Streams` | `std::istream::read` and `std::ostream::write` on string streams |
| exact_io.dfy | `ExactIO` | `readAll`, `writeAll` |
| checksum.dfy | `Checksum` | `fnv1a_64`, `computeChecksum` |
| zstd.dfy | `Zstd` | `compressZstd`, `decompressZstd` |
| version.dfy | `Versions` | `Version`, `operator>`, `operator==`, `compareVersion` |
| version_text.dfy | `VersionText` | `Version::to_string`, `parseVersion` |
| envelope.dfy | `Envelope` | `SerializableVersion`, `serialize`, `DeserializeHelper`, `Deserializer::deserialize` |
| test_mocks.dfy | `TestMocks` | `TestMock1`, `TestMock2` and the serializable round-trip test |

## Model

| member | source | states |
|---|---|---|
| Streams.Read | modules/core/include/packio/core/serializable.h:138-142 | an unchecked `read` into a zeroed buffer always yields n bytes: the available prefix, then zeros; the stream stays good exactly when n bytes were available |
| Streams.Extracted | modules/core/include/packio/core/compression.h:40 | `gcount()` never exceeds the request or what is left; on a good stream it equals the request exactly when enough bytes remain and otherwise equals what is left; it is 0 on a failed stream |
| Streams.Write | modules/core/include/packio/core/serializable.h:153-155 | a good stream keeps what it had and gains exactly the written bytes; a failed stream is unchanged |
| Streams.WriteAppends | modules/core/include/packio/core/serializable.h:153-155 | two successive writes deliver the concatenation |
| Streams.Resize | modules/core/include/packio/core/compression.h:103 | `resize(n)` gives length n, keeps the old prefix and zero-fills any growth |
| ExactIO.ReadAll | modules/core/include/packio/core/compression.h:38-43 | succeeds iff the stream is good and at least `size` bytes remain; on success it yields exactly the next `size` bytes and the stream advanced by `size`; otherwise it fails with the caller's message |
| ExactIO.WriteAll | modules/core/include/packio/core/compression.h:46-51 | succeeds iff the stream is good; it then appends exactly the first `size` buffer bytes and nothing else; otherwise it fails with the caller's message |
| ExactIO.ReadAllSplits | modules/core/include/packio/core/compression.h:38-43 | reading a+b bytes equals reading a bytes then b bytes, in both the bytes and the final stream |
| ExactIO.WriteThenReadBack | modules/core/include/packio/core/compression.h:38-51 | the bytes `writeAll` appends are exactly what `readAll` of that length returns from a stream that starts with them |
| Checksum.FoldSnoc | modules/core/include/packio/core/compression.h:57-64 | fold law: hashing s ++ [b] is one more xor-then-multiply step on the hash of s |
| Checksum.FoldAppend | modules/core/include/packio/core/compression.h:57-64 | hashing a ++ b continues from the hash of a, so the hash is a left fold in byte order |
| Checksum.HashLoop | modules/core/include/packio/core/compression.h:57-64 | the indexed loop over the first `length` bytes computes the recursive fold |
| Checksum.Fnv1a64AsWritten | modules/core/include/packio/core/compression.h:53-65 | `fnv1a_64` as written equals the fold from the declared basis 1469598103934665603 |
| Checksum.Fnv1a64 | modules/core/include/packio/core/compression.h:53-65 | with the standard offset basis, the loop computes FNV-1a 64 of the first `length` bytes |
| Checksum.ComputeChecksum | modules/core/include/packio/core/compression.h:67-69 | `computeChecksum(d, n)` as written is the fold of the first n bytes of d from the declared basis 1469598103934665603, the same hash `fnv1a_64` computes |
| Checksum.ComputeChecksumCorrected | modules/core/include/packio/core/compression.h:67-69 | with the standard basis, `computeChecksum(d, n)` is FNV-1a 64 of the first n bytes of d |
| Checksum.EmptyHashIsBasis | modules/core/include/packio/core/compression.h:53-65 | the empty buffer hashes to the offset basis: 1469598103934665603 as written, 0xcbf29ce484222325 corrected |
| Checksum.AsWrittenMissesTestVector | modules/core/include/packio/core/compression.h:54 | with the declared basis, "a" hashes to 0x44bd8ad473cd9906, not the FNV-1a vector 0xaf63dc4c8601ec8c |
| Checksum.StandardTestVectors | modules/core/include/packio/core/compression.h:53-65 | the corrected hash meets the published FNV-1a 64 vectors for "" and "a" |
| Zstd.CompressZstd | modules/core/include/packio/core/compression.h:72-105 | fails when the context cannot be created or the backend reports an error (carrying its name); otherwise returns exactly the reported number of bytes, the prefix of the destination buffer |
| Zstd.CompressWithinBound | modules/core/include/packio/core/compression.h:84-104 | with a backend that respects its capacity, the trimmed result is never longer than the compress bound |
| Zstd.DecompressZstd | modules/core/include/packio/core/compression.h:108-125 | a success always has exactly the expected length; it fails on a backend error (carrying its name), and on a reported size different from the expected size |
| Zstd.CompressThenDecompress | modules/core/include/packio/core/compression.h:72-125 | when the backend's decompression inverts its compression, decompressing `compressZstd`'s output at the original size returns the original bytes |
| Zstd.WrongExpectedSizeRejected | modules/core/include/packio/core/compression.h:116-122 | an expected size different from the true decompressed length is always rejected |
| Versions.CompareVersion | modules/core/include/packio/core/serializable.h:50-54 | EQUAL iff the versions are equal, GREATER iff v1 > v2, LESS iff v2 > v1 |
| Versions.CompareAntisymmetric | modules/core/include/packio/core/serializable.h:13-54 | swapping the arguments negates the enum value: GREATER (-1) and LESS (1) trade places, EQUAL (0) stays |
| Versions.Greater | modules/core/include/packio/core/serializable.h:24-35 | `operator>` holds exactly when the rank of v1, (major, minor, patch) read as the digits of one number, exceeds that of v2: the lexicographic order |
| Versions.RankInjective | modules/core/include/packio/core/serializable.h:24-35 | distinct versions never tie in that order |
| Versions.Equal | modules/core/include/packio/core/serializable.h:37-39 | `operator==` holds iff the two versions are identical |
| Versions.GreaterIrreflexive | modules/core/include/packio/core/serializable.h:24-35 | no version is greater than itself |
| Versions.GreaterAsymmetric | modules/core/include/packio/core/serializable.h:24-35 | v1 > v2 excludes v2 > v1 |
| Versions.GreaterTransitive | modules/core/include/packio/core/serializable.h:24-35 | v1 > v2 and v2 > v3 give v1 > v3 |
| Versions.GreaterConnected | modules/core/include/packio/core/serializable.h:24-35 | of two distinct versions one is greater |
| VersionText.DigitsValueOfDecimal | modules/core/include/packio/core/serializable.h:19-21 | the decimal digits `std::to_string` writes for n read back as n |
| VersionText.ExtractIntOfString | modules/core/include/packio/core/serializable.h:45 | `>> int` on `std::to_string(n)` followed by a non-digit stores n, stops after the digits and leaves the stream good unless the text ended |
| VersionText.ExtractSeparator | modules/core/include/packio/core/serializable.h:45 | `>> char` consumes exactly one non-space character |
| VersionText.ParseWithSeparator | modules/core/include/packio/core/serializable.h:42-47 | "major c minor c patch" parses to the three components for any separator c that is neither a digit nor white space |
| VersionText.ToString | modules/core/include/packio/core/serializable.h:19-21 | `parseVersion` of the text `to_string` produces recovers all three components, negative ones included |
| VersionText.ParseVersion | modules/core/include/packio/core/serializable.h:42-47 | the major component is unset exactly when the text is empty or all white space; an unset component leaves every later one unset |
| VersionText.ExtractInt | modules/core/include/packio/core/serializable.h:45 | `>> int` stores nothing exactly when the stream had already failed or holds only white space, and then leaves the stream failed; a failed stream is passed on unchanged; otherwise it skips the white space, takes an optional '-' or '+' and converts what follows, negated after '-'; only a prefix of the text is consumed, and a stream still good afterwards has consumed something and stops at a non-digit |
| VersionText.ExtractDigits | modules/core/include/packio/core/serializable.h:45 | with no digits it stores 0 and fails; otherwise it consumes exactly the digit run and stores its decimal value, signed, or the nearest `int` limit when that value does not fit; the stream stays good exactly when the value fits and text remains after the digits |
| VersionText.ExtractChar | modules/core/include/packio/core/serializable.h:45 | `>> char` passes a failed stream on unchanged; it succeeds exactly when a non-space character remains, and then consumes the white space before it and that one character |
| VersionText.ParseEmpty | modules/core/include/packio/core/serializable.h:42-47 | parsing empty text stores none of the three variables |
| VersionText.ParseMissingPatch | modules/core/include/packio/core/serializable.h:42-47 | "1.2" stores 1 and 2 and leaves the patch unset, because the stream hits end-of-text |
| Envelope.EncodeVersion | modules/core/include/packio/core/serializable.h:59-61 | the 6-byte version record decodes back to the version written |
| Envelope.DecodeVersion | modules/core/include/packio/core/serializable.h:141-142 | every 6 bytes are the record of the version they decode to, so the header read loses nothing |
| Envelope.Serialize | modules/core/include/packio/core/serializable.h:148-156 | a good stream gains 22 header bytes plus the body: first the signature, then the library version, then exactly the encoder's bytes; a failed stream is unchanged |
| Envelope.FirstMatch | modules/core/include/packio/core/serializable.h:107-128 | yields the least position whose signature equals the one read, or none iff no candidate matches |
| Envelope.DecodeAs | modules/core/include/packio/core/serializable.h:110-111 | decoding as candidate i tags the body decoder's value with i, returns the stream as the decoder leaves it, and passes its error on unchanged |
| Envelope.Resolve | modules/core/include/packio/core/serializable.h:107-128 | the recursive helper decodes with the first matching candidate and fails as unrecognised when none matches |
| Envelope.Deserialize | modules/core/include/packio/core/serializable.h:137-145 | the candidate depends only on the first 16 bytes, and its decoder gets the stream after byte 22; a stream shorter than 16 bytes resolves its bytes padded with zeros, one shorter than 22 bytes hands the decoder a failed stream, and a failed stream resolves the all-zero signature |
| Envelope.DeserializeChecked | modules/core/include/packio/core/serializable.h:137-145 | the corrected header read fails on a failed stream or one shorter than 22 bytes; otherwise it resolves the first 16 bytes and hands the rest after byte 22 to the decoder |
| Envelope.DeserializeReadsHeader | modules/core/include/packio/core/serializable.h:137-145 | on a complete header both readers resolve bytes 0-15, skip bytes 16-21 and agree |
| Envelope.ResolveSelectsFirstMatch | modules/core/include/packio/core/serializable.h:107-116 | the first candidate in caller order whose signature matches is the one that decodes |
| Envelope.LaterCandidatesIgnored | modules/core/include/packio/core/serializable.h:107-116 | candidates after the selected one are never consulted: replacing them changes nothing |
| Envelope.UnmatchedRunsNoDecoder | modules/core/include/packio/core/serializable.h:119-127 | with no matching signature the outcome is "unrecognised" whatever the body decoders are, so none of them runs |
| Envelope.VersionIgnored | modules/core/include/packio/core/serializable.h:141-144 | two streams that differ only in the version bytes decode identically |
| Envelope.SerializeThenDeserialize | modules/core/include/packio/core/serializable.h:148-156 | serialize then deserialize, with any bytes after the envelope, resolves to the first candidate with the written signature, and its decoder sees the body bytes followed by those bytes |
| Envelope.SerializeDeserializeValue | modules/core/include/packio/core/serializable.h:148-156 | when that decoder inverts the encoder, the round trip returns the value tagged with its candidate's position and leaves the stream at the first byte after the envelope |
| Envelope.SerializeAppends | modules/core/include/packio/core/serializable.h:148-156 | serializing onto a good sink appends exactly the envelope it writes onto an empty one |
| TestMocks.SignaturesDiffer | tests/testutils/include/testutils/serializableinstances.h:28-52 | the two mock signatures differ (at byte 10) |
| TestMocks.Mock1RoundTrip | tests/core/src/serializable.test.cpp:9-21 | TestMock1 serialized and deserialized with `<TestMock1, TestMock2>` comes back as alternative 0, TestMock1 |
| TestMocks.Mock2RoundTrip | tests/core/src/serializable.test.cpp:9-21 | TestMock2 comes back as alternative 1, TestMock2 |
| TestMocks.Mock1RoundTripReversed | modules/core/include/packio/core/serializable.h:107-116 | an extra property beyond the test: with the candidate order reversed, TestMock1 still resolves to TestMock1, now at position 1 |
| TestMocks.ConsecutiveEnvelopes | modules/core/include/packio/core/serializable.h:137-156 | two envelopes serialized into one stream deserialize in order, TestMock1 then TestMock2, and the second call leaves the stream empty and good |
| TestMocks.OtherMockRejected | modules/core/include/packio/core/serializable.h:119-127 | a TestMock1 stream given only the TestMock2 candidate fails as unrecognised |
| TestMocks.TruncatedHeaderAccepted | modules/core/include/packio/core/serializable.h:138-144 | a stream holding only TestMock1's signature is accepted as written, with the decoder handed a failed stream, and rejected by the checked header read |

## Left out

- The Zstd library is not modelled: context parameters (level, `ZSTD_c_nbWorkers`), `ZSTD_freeCCtx` and the codec itself. It enters only through the `Backend` parameter.
- Multi-threaded compression is not modelled. It happens inside the foreign call and cannot be seen from the API.
- The library version constants come from `packio/core/version.h`, which is not part of this model. `Serialize` takes the version as a parameter.
- `serializeBody` and `deserializeBody` are per-type collaborators. They enter as function parameters. The mocks' `serializeBody` writes nothing.
- The unused `MAJOR`/`MINOR`/`PATCH` template parameters and the `minVersion` argument have no behaviour, so they are not modelled.
- Host byte order and struct padding of the `reinterpret_cast` dump are not modelled. The version record is fixed as three tightly packed little-endian `uint16_t`.
- Streams keep a single `good()` flag. The eofbit/failbit/badbit distinction, exception masks and `seekg` are not modelled. A good output sink in this model never fails on its own; in C++ that is true of string streams but not of file streams.
- `readAll`'s `std::streamsize` is modelled as a natural number. A negative size is not modelled.
- `parseVersion` follows the "C" locale and libstdc++'s `num_get`: a failed conversion stores 0 and an out-of-range value stores the nearest `int` limit. The character read into `dot` is never used, so only the stream position it advances is modelled.
- `Zstd.WrongExpectedSizeRejected`: assumes the backend reports either an error or the true decompressed length for a mismatched request. This is what Zstd's frame format guarantees, but it is not derived from the library here.
- Text is a Dafny `string`, one `char` per byte of the C++ `std::string`: bytes are read as Latin-1, so a character above 255 stands for nothing in the C++ program. `ParseWithSeparator` and the white-space and digit tests are meant for characters below 256.
- A failed `readAll`, `writeAll`, body decode or header read returns only the error. The C++ stream may already have consumed or written part of the bytes and be left failed, and `readAll` may have filled part of the caller's buffer. Neither that stream state nor the partial buffer is returned.
- An unrecognised signature fails with only the error. By then the C++ caller's stream has already been moved past the 22-byte header, or left failed if it held fewer bytes, and nothing after the header has been read. The model returns no stream with this failure, so that position is not stated.
- The test mocks' decoders: the test resolves through `deserializeBody<TestMockVariant, TestMockN>`, which returns the variant, but only the mock-typed specialisations `deserializeBody<TestMockN>` exist. The variant-returning decoder is therefore not in the source. `Mock1Candidate` and `Mock2Candidate` assume it returns a default TestMockN without reading from the stream. The mock round-trip lemmas rest on that assumption.
- Checksum: the claim that changing any single byte changes the hash is not proved. It needs injectivity of 64-bit multiplication, which is too costly for the solver here.

## Findings

| source | as written | input that shows it | evidently intended | confidence | as-written member | corrected member |
|---|---|---|---|---|---|---|
| modules/core/include/packio/core/compression.h:54 | `FNV_OFFSET_BASIS = 1469598103934665603`: the FNV-1a 64 basis 14695981039346656037 with its last digit dropped | "a": as written 0x44bd8ad473cd9906; FNV-1a gives 0xaf63dc4c8601ec8c. The empty buffer gives 0x14650fb0739d0383 instead of 0xcbf29ce484222325 | the standard FNV-1a 64 offset basis, as the function's name says | high that it is not FNV-1a; the checksum still detects corruption consistently within Packio (not executed) | Checksum.Fnv1a64AsWritten, Checksum.ComputeChecksum, Checksum.AsWrittenMissesTestVector | Checksum.Fnv1a64, Checksum.ComputeChecksumCorrected, Checksum.StandardTestVectors |
| modules/core/include/packio/core/serializable.h:138-144 | the 16-byte signature and 6-byte version are read with unchecked `stream.read` | a 16-byte stream holding only "TestMocker1     " deserializes as TestMock1, with no version record present | a short header is a stream error, as `readAll` provides | medium (not executed) | Envelope.Deserialize, TestMocks.TruncatedHeaderAccepted | Envelope.DeserializeChecked |

=== FILE: checksum.dfy ===
/** The 64-bit FNV-1a checksum of `compression.h`. The accumulator is a
    `bv64`, so `*` is multiplication modulo 2^64 exactly as on `uint64_t`. */
module Checksum {
  import opened Streams

  /** The offset basis the header declares. It is the FNV-1a 64-bit offset
      basis with its last decimal digit missing. */
  const SourceOffsetBasis: bv64 := 1469598103934665603

  /** The FNV-1a 64-bit offset basis as the FNV specification defines it
      (0xcbf29ce484222325). */
  const OffsetBasis: bv64 := 14695981039346656037

  const Prime: bv64 := 1099511628211

  /** One round of the loop body: xor in the zero-extended byte, multiply. */
  function Step(h: bv64, b: byte): bv64
  {
    (h ^ (b as bv64)) * Prime
  }

  /** The hash of `data` started from accumulator `h`, consuming bytes front to back. */
  function Fold(h: bv64, data: seq<byte>): bv64
    decreases |data|
  {
    if |data| == 0 then h else Fold(Step(h, data[0]), data[1..])
  }

  /** FNV-1a 64 with the standard offset basis. */
  function Fnv1a(data: seq<byte>): bv64
  {
    Fold(OffsetBasis, data)
  }

  /** FNV-1a 64 with the offset basis the header declares. */
  function Fnv1aAsWritten(data: seq<byte>): bv64
  {
    Fold(SourceOffsetBasis, data)
  }

  /** Fold law: one more byte is one more step on the previous hash. */
  lemma {:induction false} FoldSnoc(h: bv64, data: seq<byte>, b: byte)
    ensures Fold(h, data + [b]) == Step(Fold(h, data), b)
    decreases |data|
  {
    if |data| == 0 {
      assert data + [b] == [b];
      assert [b][1..] == [];
    } else {
      assert (data + [b])[1..] == data[1..] + [b];
      FoldSnoc(Step(h, data[0]), data[1..], b);
    }
  }

  /** Hashing a concatenation continues from the hash of the first part. */
  lemma {:induction false} FoldAppend(h: bv64, a: seq<byte>, b: seq<byte>)
    ensures Fold(h, a + b) == Fold(Fold(h, a), b)
    decreases |a|
  {
    if |a| == 0 {
      assert a + b == b;
    } else {
      assert (a + b)[1..] == a[1..] + b;
      FoldAppend(Step(h, a[0]), a[1..], b);
    }
  }

  /** The loop of `fnv1a_64` over the first `length` bytes, from accumulator `seed`. */
  method HashLoop(seed: bv64, data: seq<byte>, length: nat) returns (hash: bv64)
    requires length <= |data|
    ensures hash == Fold(seed, data[..length])
  {
    hash := seed;
    var i := 0;
    while i < length
      invariant i <= length
      invariant hash == Fold(seed, data[..i])
    {
      FoldSnoc(seed, data[..i], data[i]);
      assert data[..i + 1] == data[..i] + [data[i]];
      hash := Step(hash, data[i]);
      i := i + 1;
    }
  }

  /** `fnv1a_64(data, length)` as the header writes it. */
  method Fnv1a64AsWritten(data: seq<byte>, length: nat) returns (hash: bv64)
    requires length <= |data|
    ensures hash == Fnv1aAsWritten(data[..length])
  {
    hash := HashLoop(SourceOffsetBasis, data, length);
  }

  /** `fnv1a_64(data, length)` with the standard offset basis. */
  method Fnv1a64(data: seq<byte>, length: nat) returns (hash: bv64)
    requires length <= |data|
    ensures hash == Fnv1a(data[..length])
  {
    hash := HashLoop(OffsetBasis, data, length);
  }

  /** `computeChecksum(data, size)`: `fnv1a_64` of the first `size` bytes,
      with the offset basis the header declares. */
  method ComputeChecksum(data: seq<byte>, size: nat) returns (checksum: bv64)
    requires size <= |data|
    ensures checksum == Fnv1aAsWritten(data[..size])
  {
    checksum := Fnv1a64AsWritten(data, size);
  }

  /** `computeChecksum` over the standard FNV-1a 64 hash. */
  method ComputeChecksumCorrected(data: seq<byte>, size: nat) returns (checksum: bv64)
    requires size <= |data|
    ensures checksum == Fnv1a(data[..size])
  {
    checksum := Fnv1a64(data, size);
  }

  /** A one-byte buffer takes exactly one step. */
  lemma SingleByteFold(h: bv64, b: byte)
    ensures Fold(h, [b]) == Step(h, b)
  {
    assert [b][1..] == [];
  }

  /** The empty buffer hashes to the offset basis, for either basis. */
  lemma EmptyHashIsBasis()
    ensures Fnv1a([]) == OffsetBasis == 0xcbf29ce484222325
    ensures Fnv1aAsWritten([]) == SourceOffsetBasis == 1469598103934665603
  {
  }

  /** The published FNV-1a 64 test vectors for "" and "a" hold of the
      corrected hash. */
  lemma StandardTestVectors()
    ensures Fnv1a([]) == 0xcbf29ce484222325
    ensures Fnv1a([0x61]) == 0xaf63dc4c8601ec8c
  {
    SingleByteFold(OffsetBasis, 0x61);
    assert (0x61 as byte) as bv64 == 0x61;
  }

  /** The header's basis gives a different hash for "a" than the FNV-1a
      test vector, so its `fnv1a_64` is not FNV-1a. */
  lemma AsWrittenMissesTestVector()
    ensures Fnv1aAsWritten([0x61]) == 0x44bd8ad473cd9906
    ensures Fnv1aAsWritten([0x61]) != 0xaf63dc4c8601ec8c
    ensures SourceOffsetBasis != OffsetBasis
  {
    SingleByteFold(SourceOffsetBasis, 0x61);
    assert (0x61 as byte) as bv64 == 0x61;
  }
}

=== FILE: envelope.dfy ===
/** The envelope of `serializable.h`: a 16-byte type signature, a 6-byte
    version record, then the body the type's own encoder writes. Decoding
    reads the header back and dispatches on the signature through an ordered
    list of candidate types; the first candidate whose signature matches
    decodes the body.

    The compile-time list of candidate types becomes a runtime sequence of
    (signature, body decoder) pairs. The result is the decoded value, which
    stands for the C++ result, tagged with the position of the candidate that
    produced it; that position is the model's own and need not equal the
    variant's `index()`. */
module Envelope {
  import opened Errors
  import opened Streams
  import opened ExactIO

  const SignatureSize: nat := 16
  const VersionSize: nat := 6
  const HeaderSize: nat := SignatureSize + VersionSize

  /** `std::array<char, 16>`: a type's identity on the wire. */
  type Signature = s: seq<byte> | |s| == SignatureSize witness Zeros(SignatureSize)

  newtype uint16 = x: int | 0 <= x < 0x1_0000

  /** `SerializableVersion`: three `uint16_t` written back to back. */
  datatype SerializableVersion = SerializableVersion(versionMajor: uint16, versionMinor: uint16, versionPatch: uint16)

  /** Little-endian layout of one `uint16_t`. */
  function EncodeU16(x: uint16): (r: seq<byte>)
    ensures |r| == 2
  {
    [(x as int % 256) as byte, (x as int / 256) as byte]
  }

  function DecodeU16(b: seq<byte>): uint16
    requires |b| == 2
  {
    (b[0] as int + 256 * b[1] as int) as uint16
  }

  lemma U16RoundTrip(x: uint16)
    ensures DecodeU16(EncodeU16(x)) == x
  {
  }

  lemma U16BytesRoundTrip(b: seq<byte>)
    requires |b| == 2
    ensures EncodeU16(DecodeU16(b)) == b
  {
    var x := DecodeU16(b);
    assert x as int % 256 == b[0] as int;
    assert x as int / 256 == b[1] as int;
  }

  /** The 6 bytes of a `SerializableVersion`: major, minor, patch, each
      little-endian. Reading them back gives the same version. */
  function EncodeVersion(v: SerializableVersion): (r: seq<byte>)
    ensures |r| == VersionSize
    ensures DecodeVersion(r) == v
  {
    var r := EncodeU16(v.versionMajor) + EncodeU16(v.versionMinor) + EncodeU16(v.versionPatch);
    assert r[0..2] == EncodeU16(v.versionMajor);
    assert r[2..4] == EncodeU16(v.versionMinor);
    assert r[4..6] == EncodeU16(v.versionPatch);
    U16RoundTrip(v.versionMajor);
    U16RoundTrip(v.versionMinor);
    U16RoundTrip(v.versionPatch);
    r
  }

  /** The version a 6-byte record holds. Every record is the encoding of the
      version it decodes to, so no two records decode alike. */
  function DecodeVersion(b: seq<byte>): (r: SerializableVersion)
    requires |b| == VersionSize
    ensures EncodeU16(r.versionMajor) + EncodeU16(r.versionMinor) + EncodeU16(r.versionPatch) == b
  {
    U16BytesRoundTrip(b[0..2]);
    U16BytesRoundTrip(b[2..4]);
    U16BytesRoundTrip(b[4..6]);
    assert b == b[0..2] + b[2..4] + b[4..6];
    SerializableVersion(DecodeU16(b[0..2]), DecodeU16(b[2..4]), DecodeU16(b[4..6]))
  }

  /** `serialize<T>(serializable, stream)`: write the type's signature, the
      library version and then whatever the type's body encoder writes. The
      writes are unchecked; a failed stream takes none of them. */
  function Serialize<T>(signature: Signature, encodeBody: T -> seq<byte>, value: T,
                        libraryVersion: SerializableVersion, out: OutStream): (r: OutStream)
    ensures r.good == out.good
    ensures !out.good ==> r == out
    ensures out.good ==> |r.written| >= |out.written|
    ensures out.good ==>
      var produced := r.written[|out.written|..];
      && r.written[..|out.written|] == out.written
      && |produced| == HeaderSize + |encodeBody(value)|
      && produced[..SignatureSize] == signature
      && DecodeVersion(produced[SignatureSize..HeaderSize]) == libraryVersion
      && produced[HeaderSize..] == encodeBody(value)
  {
    HeaderLayout(out, signature, EncodeVersion(libraryVersion), encodeBody(value));
    Write(Write(Write(out, signature), EncodeVersion(libraryVersion)), encodeBody(value))
  }

  /** Where three successive writes onto a good sink land: a 16-byte
      signature, a 6-byte record and a body, one after the other. */
  lemma HeaderLayout(out: OutStream, signature: Signature, record: seq<byte>, body: seq<byte>)
    requires |record| == VersionSize
    ensures out.good ==>
      var produced := Write(Write(Write(out, signature), record), body).written[|out.written|..];
      && produced[..SignatureSize] == signature
      && produced[SignatureSize..HeaderSize] == record
      && produced[HeaderSize..] == body
  {
    if out.good {
      var produced := Write(Write(Write(out, signature), record), body).written[|out.written|..];
      assert produced == signature + record + body;
    }
  }

  /** One entry of the candidate list: its signature and its
      `deserializeBody`, which reads the body from the stream and leaves the
      stream wherever it stopped reading. */
  datatype Candidate<V> = Candidate(signature: Signature, decodeBody: InStream -> Result<(V, InStream)>)

  /** A decoded value, the position in the candidate list of the type that
      decoded it, and the stream as the call leaves it. Only `value` is the
      C++ result; the position is added by the model. */
  datatype Tagged<V> = Tagged(index: nat, value: V, stream: InStream)

  /** The first position at or after `from` whose candidate carries `signature`. */
  function FirstMatch<V>(candidates: seq<Candidate<V>>, signature: seq<byte>, from: nat): (r: Option<nat>)
    requires from <= |candidates|
    ensures r.Some? ==> from <= r.value < |candidates| && candidates[r.value].signature == signature
    ensures r.Some? ==> forall j :: from <= j < r.value ==> candidates[j].signature != signature
    ensures r.None? <==> forall j :: from <= j < |candidates| ==> candidates[j].signature != signature
    decreases |candidates| - from
  {
    if from == |candidates| then None
    else if candidates[from].signature == signature then Some(from)
    else FirstMatch(candidates, signature, from + 1)
  }

  /** Runs candidate `i`'s body decoder and tags its value with `i`; a decoder
      error propagates unchanged. */
  function DecodeAs<V>(candidates: seq<Candidate<V>>, i: nat, s: InStream): (r: Result<Tagged<V>>)
    requires i < |candidates|
    ensures r.Ok? <==> candidates[i].decodeBody(s).Ok?
    ensures r.Ok? ==> r.value == Tagged(i, candidates[i].decodeBody(s).value.0, candidates[i].decodeBody(s).value.1)
    ensures r.Fail? ==> r.error == candidates[i].decodeBody(s).error
  {
    match candidates[i].decodeBody(s)
    case Ok((v, after)) => Ok(Tagged(i, v, after))
    case Fail(e) => Fail(e)
  }

  /** `DeserializeHelper<..., T, Args...>::deserialize` for the candidate at
      position `k`: decode as that candidate when its signature equals the
      one read, otherwise try the rest; past the last candidate (the base
      case) fail as unrecognised. */
  function Resolve<V>(candidates: seq<Candidate<V>>, k: nat, signature: seq<byte>, s: InStream): (r: Result<Tagged<V>>)
    requires k < |candidates|
    ensures match FirstMatch(candidates, signature, k)
      case Some(i) => r == DecodeAs(candidates, i, s)
      case None => r == Fail(UnrecognisedSerializable)
    decreases |candidates| - k
  {
    if candidates[k].signature == signature then DecodeAs(candidates, k, s)
    else if k + 1 == |candidates| then Fail(UnrecognisedSerializable)
    else Resolve(candidates, k + 1, signature, s)
  }

  /** `Deserializer<U>::deserialize<Args...>(stream)` as written: read 16
      signature bytes and 6 version bytes without checking either read, then
      resolve. The version is read but never looked at. A stream shorter than
      the header yields a zero-padded signature and leaves the stream failed. */
  function Deserialize<V>(candidates: seq<Candidate<V>>, s: InStream): (r: Result<Tagged<V>>)
    requires |candidates| > 0
    ensures !s.good ==> r == Resolve(candidates, 0, Zeros(SignatureSize), s)
    ensures s.good && |s.rest| < SignatureSize ==>
      r == Resolve(candidates, 0, s.rest + Zeros(SignatureSize - |s.rest|), InStream([], false))
    ensures s.good && |s.rest| >= SignatureSize ==>
      r == Resolve(candidates, 0, s.rest[..SignatureSize],
                   if |s.rest| >= HeaderSize then InStream(s.rest[HeaderSize..], true) else InStream([], false))
  {
    var (signature, afterSignature) := Read(s, SignatureSize);
    var (_, afterVersion) := Read(afterSignature, VersionSize);
    Resolve(candidates, 0, signature, afterVersion)
  }

  /** The same with both header reads going through `readAll`, so a stream
      shorter than the header is an error instead of a zero-filled header. */
  function DeserializeChecked<V>(candidates: seq<Candidate<V>>, s: InStream): (r: Result<Tagged<V>>)
    requires |candidates| > 0
    ensures !s.good || |s.rest| < HeaderSize ==> r.Fail? && r.error.StreamFailure?
    ensures s.good && |s.rest| >= HeaderSize ==>
      r == Resolve(candidates, 0, s.rest[..SignatureSize], InStream(s.rest[HeaderSize..], true))
  {
    match ReadAll(s, SignatureSize, "Failed to read serializable signature")
    case Fail(e) => Fail(e)
    case Ok((signature, afterSignature)) =>
      match ReadAll(afterSignature, VersionSize, "Failed to read serializable version")
      case Fail(e) => Fail(e)
      case Ok((_, afterVersion)) => Resolve(candidates, 0, signature, afterVersion)
  }

  /** A complete header: the signature is the first 16 bytes, the body decoder
      sees the stream right after the 22-byte header, and the choice of
      candidate depends on nothing else. */
  lemma DeserializeReadsHeader<V>(candidates: seq<Candidate<V>>, s: InStream)
    requires |candidates| > 0 && s.good && |s.rest| >= HeaderSize
    ensures Deserialize(candidates, s)
            == Resolve(candidates, 0, s.rest[..SignatureSize], InStream(s.rest[HeaderSize..], true))
    ensures DeserializeChecked(candidates, s) == Deserialize(candidates, s)
  {
  }

  /** Resolution picks the first candidate, in list order, whose signature
      matches, and decodes with that candidate alone. */
  lemma ResolveSelectsFirstMatch<V>(candidates: seq<Candidate<V>>, i: nat, signature: seq<byte>, s: InStream)
    requires i < |candidates| && candidates[i].signature == signature
    requires forall j :: 0 <= j < i ==> candidates[j].signature != signature
    ensures Resolve(candidates, 0, signature, s) == DecodeAs(candidates, i, s)
  {
  }

  /** Candidates after the selected one are never consulted: replacing them,
      decoders and signatures alike, changes nothing. */
  lemma LaterCandidatesIgnored<V>(candidates: seq<Candidate<V>>, others: seq<Candidate<V>>, i: nat,
                                  signature: seq<byte>, s: InStream)
    requires FirstMatch(candidates, signature, 0) == Some(i)
    requires i < |others| && others[..i + 1] == candidates[..i + 1]
    ensures Resolve(others, 0, signature, s) == Resolve(candidates, 0, signature, s)
  {
    forall j | 0 <= j <= i
      ensures others[j] == candidates[j]
    {
      assert others[j] == others[..i + 1][j];
    }
    assert FirstMatch(others, signature, 0) == Some(i);
  }

  /** An unmatched signature fails as unrecognised without running any body
      decoder: the outcome is the same whatever the decoders are. */
  lemma UnmatchedRunsNoDecoder<V>(candidates: seq<Candidate<V>>, others: seq<Candidate<V>>,
                                  signature: seq<byte>, s: InStream)
    requires |candidates| > 0 && |others| == |candidates|
    requires forall j :: 0 <= j < |candidates| ==> candidates[j].signature != signature
    requires forall j :: 0 <= j < |candidates| ==> others[j].signature == candidates[j].signature
    ensures Resolve(candidates, 0, signature, s) == Fail(UnrecognisedSerializable)
    ensures Resolve(others, 0, signature, s) == Fail(UnrecognisedSerializable)
  {
  }

  /** The version bytes play no part in decoding: two streams that differ
      only there decode identically. */
  lemma VersionIgnored<V>(candidates: seq<Candidate<V>>, signature: seq<byte>, v1: seq<byte>, v2: seq<byte>,
                          body: seq<byte>)
    requires |candidates| > 0 && |signature| == SignatureSize && |v1| == VersionSize && |v2| == VersionSize
    ensures Deserialize(candidates, InStream(signature + v1 + body, true))
            == Deserialize(candidates, InStream(signature + v2 + body, true))
    ensures DeserializeChecked(candidates, InStream(signature + v1 + body, true))
            == DeserializeChecked(candidates, InStream(signature + v2 + body, true))
  {
  }

  /** `Serialize` appends to what the sink already holds: writing onto a
      good sink adds exactly the envelope it writes onto an empty one. */
  lemma SerializeAppends<T>(signature: Signature, encodeBody: T -> seq<byte>, value: T,
                            version: SerializableVersion, written: seq<byte>)
    ensures Serialize(signature, encodeBody, value, version, OutStream(written, true)).written
            == written + Serialize(signature, encodeBody, value, version, OutStream([], true)).written
  {
    var envelope := signature + EncodeVersion(version) + encodeBody(value);
    assert Serialize(signature, encodeBody, value, version, OutStream([], true)).written == [] + envelope;
    assert written + signature + EncodeVersion(version) + encodeBody(value) == written + envelope;
  }

  /** Round trip: bytes written by `Serialize` for a type whose signature
      first appears at position i of the candidate list, followed by any
      further bytes, decode as candidate i, whose body decoder sees the body
      bytes and everything after them. */
  lemma SerializeThenDeserialize<T, V>(candidates: seq<Candidate<V>>, i: nat, signature: Signature,
                                       encodeBody: T -> seq<byte>, value: T, version: SerializableVersion,
                                       tail: seq<byte>)
    requires i < |candidates| && candidates[i].signature == signature
    requires forall j :: 0 <= j < i ==> candidates[j].signature != signature
    ensures var bytes := Serialize(signature, encodeBody, value, version, OutStream([], true)).written + tail;
            && Deserialize(candidates, InStream(bytes, true))
               == DecodeAs(candidates, i, InStream(encodeBody(value) + tail, true))
            && DeserializeChecked(candidates, InStream(bytes, true)) == Deserialize(candidates, InStream(bytes, true))
  {
    var envelope := Serialize(signature, encodeBody, value, version, OutStream([], true)).written;
    assert envelope == envelope[..SignatureSize] + envelope[SignatureSize..HeaderSize] + envelope[HeaderSize..];
    var bytes := envelope + tail;
    assert bytes[..SignatureSize] == signature;
    assert bytes[HeaderSize..] == encodeBody(value) + tail;
    DeserializeReadsHeader(candidates, InStream(bytes, true));
  }

  /** When the selected type's body decoder reads back exactly what its
      encoder wrote, the round trip returns the value itself, tagged with the
      type's position, and leaves the stream at the first byte after the
      envelope. */
  lemma SerializeDeserializeValue<T, V>(candidates: seq<Candidate<V>>, i: nat, signature: Signature,
                                        encodeBody: T -> seq<byte>, inject: T -> V, value: T,
                                        version: SerializableVersion, tail: seq<byte>)
    requires i < |candidates| && candidates[i].signature == signature
    requires forall j :: 0 <= j < i ==> candidates[j].signature != signature
    requires candidates[i].decodeBody(InStream(encodeBody(value) + tail, true)) == Ok((inject(value), InStream(tail, true)))
    ensures var bytes := Serialize(signature, encodeBody, value, version, OutStream([], true)).written + tail;
            Deserialize(candidates, InStream(bytes, true)) == Ok(Tagged(i, inject(value), InStream(tail, true)))
  {
    SerializeThenDeserialize(candidates, i, signature, encodeBody, value, version, tail);
  }
}

=== FILE: errors.dfy ===
/** Failure outcomes of the envelope codec. Every `throw std::runtime_error`
    of the headers becomes one `Error` case, so that each operation returns
    a `Result` instead of raising. */
module Errors {

  /** Why a call failed; the string payloads carry the C++ message or the
      backend's error name. */
  datatype Error =
    | UnrecognisedSerializable           // no candidate signature matched
    | StreamFailure(message: string)     // readAll / writeAll could not move every byte
    | ContextCreationFailed              // ZSTD_createCCtx returned null
    | CompressionFailed(errorName: string)
    | DecompressionFailed(errorName: string)
    | DecompressionSizeMismatch          // backend produced a different byte count

  /** A value or the error that aborted the call. */
  datatype Result<+T> = Ok(value: T) | Fail(error: Error)

  datatype Option<+T> = None | Some(value: T)
}

=== FILE: exact_io.dfy ===
/** The exact-length stream helpers `readAll` and `writeAll`: a transfer that
    moves fewer bytes than asked, or leaves the stream failed, is an error
    carrying the caller's message. */
module ExactIO {
  import opened Errors
  import opened Streams

  /** `readAll`: read `size` bytes, then fail unless the stream is still good
      and `gcount()` equals `size`. On success yields the bytes read and the
      stream after them. */
  function ReadAll(s: InStream, size: nat, errorMsg: string): (r: Result<(seq<byte>, InStream)>)
    ensures r.Ok? <==> s.good && size <= |s.rest|
    ensures r.Ok? ==> r.value.0 == s.rest[..size]
    ensures r.Ok? ==> r.value.1 == InStream(s.rest[size..], true)
    ensures r.Fail? ==> r.error == StreamFailure(errorMsg)
  {
    var (buffer, after) := Read(s, size);
    if !after.good || Extracted(s, size) != size then Fail(StreamFailure(errorMsg))
    else Ok((buffer, after))
  }

  /** `writeAll`: write the first `size` bytes of `buffer`, then fail if the
      stream is no longer good. */
  function WriteAll(out: OutStream, buffer: seq<byte>, size: nat, errorMsg: string): (r: Result<OutStream>)
    requires size <= |buffer|
    ensures r.Ok? <==> out.good
    ensures r.Ok? ==> r.value == OutStream(out.written + buffer[..size], true)
    ensures r.Fail? ==> r.error == StreamFailure(errorMsg)
  {
    var after := Write(out, buffer[..size]);
    if !after.good then Fail(StreamFailure(errorMsg)) else Ok(after)
  }

  /** Reading a + b bytes at once is the same as reading a then b. */
  lemma ReadAllSplits(s: InStream, a: nat, b: nat, msg: string)
    requires s.good && a + b <= |s.rest|
    ensures ReadAll(s, a, msg).Ok?
    ensures ReadAll(ReadAll(s, a, msg).value.1, b, msg).Ok?
    ensures ReadAll(s, a, msg).value.0 + ReadAll(ReadAll(s, a, msg).value.1, b, msg).value.0
            == ReadAll(s, a + b, msg).value.0
    ensures ReadAll(ReadAll(s, a, msg).value.1, b, msg).value.1 == ReadAll(s, a + b, msg).value.1
  {
  }

  /** What `writeAll` appends to a good sink, `readAll` of the same length
      returns from a source that holds those bytes followed by anything. */
  lemma {:induction false} WriteThenReadBack(out: OutStream, buffer: seq<byte>, tail: seq<byte>, wmsg: string, rmsg: string)
    requires out.good
    ensures WriteAll(out, buffer, |buffer|, wmsg).Ok?
    ensures var appended := WriteAll(out, buffer, |buffer|, wmsg).value.written[|out.written|..];
            ReadAll(InStream(appended + tail, true), |buffer|, rmsg) == Ok((buffer, InStream(tail, true)))
  {
    var appended := WriteAll(out, buffer, |buffer|, wmsg).value.written[|out.written|..];
    assert buffer[..|buffer|] == buffer;
    assert appended == buffer;
    assert (appended + tail)[..|buffer|] == buffer;
    assert (appended + tail)[|buffer|..] == tail;
  }
}

=== FILE: streams.dfy ===
/** Byte streams as the headers use them: `std::istream::read` and
    `std::ostream::write` on in-memory string streams.

    An input stream is the suffix of bytes not yet consumed together with its
    `good()` flag; consuming n bytes drops them from the front, so the read
    position is implicit. An output stream is everything written so far and
    its `good()` flag. */
module Streams {

  /** An octet, as `char` and `uint8_t` hold it in the headers. */
  newtype byte = x: int | 0 <= x < 256

  datatype InStream = InStream(rest: seq<byte>, good: bool)

  datatype OutStream = OutStream(written: seq<byte>, good: bool)

  /** n zero bytes: a value-initialised buffer such as `std::array<char, 16>{}`. */
  function Zeros(n: nat): (r: seq<byte>)
    ensures |r| == n
    ensures forall i :: 0 <= i < n ==> r[i] == 0
  {
    seq(n, _ => 0)
  }

  /** `std::vector::resize(n)`: truncate, or grow with zero bytes. */
  function Resize(v: seq<byte>, n: nat): (r: seq<byte>)
    ensures |r| == n
    ensures forall i :: 0 <= i < n && i < |v| ==> r[i] == v[i]
    ensures forall i :: |v| <= i < n ==> r[i] == 0
  {
    if n <= |v| then v[..n] else v + Zeros(n - |v|)
  }

  /** The number of bytes `read(buffer, n)` extracts, i.e. `gcount()` afterwards. */
  function Extracted(s: InStream, n: nat): (k: nat)
    ensures k <= n && k <= |s.rest|
    ensures !s.good ==> k == 0
    ensures s.good ==> (k == n <==> n <= |s.rest|)
    ensures s.good && n > |s.rest| ==> k == |s.rest|
  {
    if !s.good then 0 else if n <= |s.rest| then n else |s.rest|
  }

  /** `stream.read(buffer, n)` into a zero-initialised buffer, with no check of
      the outcome. A failed stream extracts nothing; a short stream yields what
      is left, the buffer keeps zeros past it, and the stream fails (eofbit and
      failbit). Reading up to the last byte exactly leaves the stream good. */
  function Read(s: InStream, n: nat): (r: (seq<byte>, InStream))
    ensures |r.0| == n
    ensures r.0[..Extracted(s, n)] == s.rest[..Extracted(s, n)]
    ensures forall i :: Extracted(s, n) <= i < n ==> r.0[i] == 0
    ensures r.1.good <==> s.good && n <= |s.rest|
    ensures r.1.rest == s.rest[Extracted(s, n)..]
  {
    var k := Extracted(s, n);
    (s.rest[..k] + Zeros(n - k), InStream(s.rest[k..], s.good && n <= |s.rest|))
  }

  /** `stream.write(buffer, n)` on a string stream: a good stream takes every
      byte, a failed one takes none. */
  function Write(out: OutStream, bytes: seq<byte>): (r: OutStream)
    ensures r.good == out.good
    ensures out.good ==> |r.written| == |out.written| + |bytes|
    ensures out.good ==> r.written[..|out.written|] == out.written
    ensures out.good ==> r.written[|out.written|..] == bytes
    ensures !out.good ==> r.written == out.written
  {
    if out.good then OutStream(out.written + bytes, true) else out
  }

  /** Two successive writes deliver the concatenation. */
  lemma WriteAppends(out: OutStream, a: seq<byte>, b: seq<byte>)
    ensures Write(Write(out, a), b) == Write(out, a + b)
  {
  }
}

=== FILE: test_mocks.dfy ===
/** The two mock serializable types of the test utilities, with empty bodies,
    and the round trip the serializable test performs with them. */
module TestMocks {
  import opened Errors
  import opened Streams
  import opened Envelope

  /** `TestMockVariant`: `std::variant<TestMock1, TestMock2>`. */
  datatype TestMockVariant = TestMock1 | TestMock2

  /** The bytes of a text whose characters are all below 256. */
  function Latin1(text: string): (r: seq<byte>)
    requires forall i :: 0 <= i < |text| ==> text[i] as int < 256
    ensures |r| == |text|
    ensures forall i :: 0 <= i < |text| ==> r[i] as int == text[i] as int
  {
    seq(|text|, i requires 0 <= i < |text| => text[i] as int as byte)
  }

  const Mock1Signature: Signature := Latin1("TestMocker1     ")
  const Mock2Signature: Signature := Latin1("TestMocker2     ")

  /** The mocks write nothing for their body ... */
  function EncodeNothing(m: TestMockVariant): seq<byte>
  {
    []
  }

  /** ... and read nothing back. The test resolves through
      `deserializeBody<TestMockVariant, TestMockN>`, which returns the variant;
      only the mock-typed specialisations exist, so this decoder is an
      assumption: it yields TestMockN without reading from the stream. */
  const Mock1Candidate: Candidate<TestMockVariant> := Candidate(Mock1Signature, s => Ok((TestMock1, s)))
  const Mock2Candidate: Candidate<TestMockVariant> := Candidate(Mock2Signature, s => Ok((TestMock2, s)))

  /** The candidate list `<TestMock1, TestMock2>`. */
  const Candidates: seq<Candidate<TestMockVariant>> := [Mock1Candidate, Mock2Candidate]

  lemma SignaturesDiffer()
    ensures Mock1Signature != Mock2Signature
  {
    assert Mock1Signature[10] as int == '1' as int;
    assert Mock2Signature[10] as int == '2' as int;
  }

  /** TestMock1 survives `serialize` then `deserialize<TestMock1, TestMock2>`,
      resolving to the first alternative, for any library version. */
  lemma Mock1RoundTrip(version: SerializableVersion)
    ensures Deserialize(Candidates, InStream(Serialize(Mock1Signature, EncodeNothing, TestMock1, version,
                                                       OutStream([], true)).written, true))
            == Ok(Tagged(0, TestMock1, InStream([], true)))
  {
  }

  /** TestMock2 resolves to the second alternative: the first candidate's
      signature differs from the one written. */
  lemma Mock2RoundTrip(version: SerializableVersion)
    ensures Deserialize(Candidates, InStream(Serialize(Mock2Signature, EncodeNothing, TestMock2, version,
                                                       OutStream([], true)).written, true))
            == Ok(Tagged(1, TestMock2, InStream([], true)))
  {
    SignaturesDiffer();
    assert Candidates[0].signature != Mock2Signature;
    assert EncodeNothing(TestMock2) + [] == [];
    assert Candidates[1].decodeBody(InStream([], true)) == Ok((TestMock2, InStream([], true)));
    SerializeDeserializeValue(Candidates, 1, Mock2Signature, EncodeNothing, m => m, TestMock2, version, []);
    assert Serialize(Mock2Signature, EncodeNothing, TestMock2, version, OutStream([], true)).written + [] ==
           Serialize(Mock2Signature, EncodeNothing, TestMock2, version, OutStream([], true)).written;
  }

  /** Beyond the test's own round trip: with the candidate list reversed to
      `<TestMock2, TestMock1>`, TestMock1 still resolves to its own type,
      now at position 1, because signatures and not positions decide. */
  lemma Mock1RoundTripReversed(version: SerializableVersion)
    ensures Deserialize([Mock2Candidate, Mock1Candidate],
                        InStream(Serialize(Mock1Signature, EncodeNothing, TestMock1, version,
                                           OutStream([], true)).written, true))
            == Ok(Tagged(1, TestMock1, InStream([], true)))
  {
    SignaturesDiffer();
    var reversed := [Mock2Candidate, Mock1Candidate];
    assert reversed[0].signature != Mock1Signature;
    assert EncodeNothing(TestMock1) + [] == [];
    assert reversed[1].decodeBody(InStream([], true)) == Ok((TestMock1, InStream([], true)));
    SerializeDeserializeValue(reversed, 1, Mock1Signature, EncodeNothing, m => m, TestMock1, version, []);
    assert Serialize(Mock1Signature, EncodeNothing, TestMock1, version, OutStream([], true)).written + [] ==
           Serialize(Mock1Signature, EncodeNothing, TestMock1, version, OutStream([], true)).written;
  }

  /** A stream serialized for one mock is rejected by a list holding only the other. */
  lemma OtherMockRejected(version: SerializableVersion)
    ensures Deserialize([Mock2Candidate], InStream(Serialize(Mock1Signature, EncodeNothing, TestMock1, version,
                                                             OutStream([], true)).written, true))
            == Fail(UnrecognisedSerializable)
  {
    SignaturesDiffer();
    var bytes := Serialize(Mock1Signature, EncodeNothing, TestMock1, version, OutStream([], true)).written;
    assert bytes[0..] == bytes;
    DeserializeReadsHeader([Mock2Candidate], InStream(bytes, true));
  }

  /** A stream holding nothing but TestMock1's 16 signature bytes, with no
      version record, is accepted by the unchecked header reads: the version
      read fails silently and TestMock1's decoder still runs. The checked
      reads reject it. */
  lemma TruncatedHeaderAccepted()
    ensures Deserialize(Candidates, InStream(Mock1Signature, true)) == Ok(Tagged(0, TestMock1, InStream([], false)))
    ensures DeserializeChecked(Candidates, InStream(Mock1Signature, true))
            == Fail(StreamFailure("Failed to read serializable version"))
  {
  }

  /** Two envelopes written one after the other into the same sink are read
      back one after the other: the first call returns TestMock1 and leaves
      the stream at the second envelope, which yields TestMock2 and leaves
      the stream empty and good. */
  lemma ConsecutiveEnvelopes(version: SerializableVersion)
    ensures var first := Serialize(Mock1Signature, EncodeNothing, TestMock1, version, OutStream([], true));
            var both := Serialize(Mock2Signature, EncodeNothing, TestMock2, version, first);
            && Deserialize(Candidates, InStream(both.written, true))
               == Ok(Tagged(0, TestMock1, InStream(Serialize(Mock2Signature, EncodeNothing, TestMock2, version,
                                                              OutStream([], true)).written, true)))
            && Deserialize(Candidates, Deserialize(Candidates, InStream(both.written, true)).value.stream)
               == Ok(Tagged(1, TestMock2, InStream([], true)))
  {
    var first := Serialize(Mock1Signature, EncodeNothing, TestMock1, version, OutStream([], true));
    var second := Serialize(Mock2Signature, EncodeNothing, TestMock2, version, OutStream([], true));
    SerializeAppends(Mock2Signature, EncodeNothing, TestMock2, version, first.written);
    assert EncodeNothing(TestMock1) + second.written == second.written;
    assert Candidates[0].decodeBody(InStream(second.written, true)) == Ok((TestMock1, InStream(second.written, true)));
    SerializeDeserializeValue(Candidates, 0, Mock1Signature, EncodeNothing, m => m, TestMock1, version, second.written);
    Mock2RoundTrip(version);
  }
}

=== FILE: version.dfy ===
/** `Version` and its comparison operators. Components are C++ `int`s. */
module Versions {

  newtype int32 = x: int | -0x8000_0000 <= x < 0x8000_0000

  datatype Version = Version(major: int32, minor: int32, patch: int32)

  /** `operator>`, branch for branch: it orders versions as `Rank` orders
      numbers, i.e. lexicographically on (major, minor, patch). */
  function Greater(v1: Version, v2: Version): (r: bool)
    ensures r <==> Rank(v1) > Rank(v2)
  {
    if v1.major > v2.major then true
    else if v1.major == v2.major then
      if v1.minor > v2.minor then true
      else if v1.minor == v2.minor then v1.patch > v2.patch
      else false
    else false
  }

  /** `operator==`: agreement of all three components is identity. */
  function Equal(v1: Version, v2: Version): (r: bool)
    ensures r <==> v1 == v2
  {
    v1.major == v2.major && v1.minor == v2.minor && v1.patch == v2.patch
  }

  /** `VERSION_COMPARISON`, with the numeric values the enum declares. */
  datatype VersionComparison = GREATER | EQUAL | LESS
  {
    function Value(): int
    {
      match this
      case GREATER => -1
      case EQUAL => 0
      case LESS => 1
    }
  }

  /** `compareVersion`: exactly one outcome, by trichotomy of `operator>`. */
  function CompareVersion(v1: Version, v2: Version): (r: VersionComparison)
    ensures r == EQUAL <==> v1 == v2
    ensures r == GREATER <==> Greater(v1, v2)
    ensures r == LESS <==> Greater(v2, v1)
  {
    if Equal(v1, v2) then EQUAL
    else if Greater(v1, v2) then GREATER
    else LESS
  }

  /** An independent reading of a version: the three components, each
      shifted to be non-negative, as the digits of one number in base 2^32. */
  function Rank(v: Version): nat
  {
    (v.major as int + 0x8000_0000) * 0x1_0000_0000_0000_0000
    + (v.minor as int + 0x8000_0000) * 0x1_0000_0000
    + (v.patch as int + 0x8000_0000)
  }

  /** Distinct versions have distinct ranks. */
  lemma RankInjective(v1: Version, v2: Version)
    ensures Rank(v1) == Rank(v2) <==> v1 == v2
  {
    if v1 != v2 {
      GreaterConnected(v1, v2);
    }
  }

  lemma GreaterIrreflexive(v: Version)
    ensures !Greater(v, v)
  {
  }

  lemma GreaterAsymmetric(v1: Version, v2: Version)
    ensures Greater(v1, v2) ==> !Greater(v2, v1)
  {
  }

  lemma GreaterTransitive(v1: Version, v2: Version, v3: Version)
    requires Greater(v1, v2) && Greater(v2, v3)
    ensures Greater(v1, v3)
  {
  }

  /** Any two distinct versions are ordered one way or the other. */
  lemma GreaterConnected(v1: Version, v2: Version)
    ensures v1 != v2 ==> Greater(v1, v2) || Greater(v2, v1)
  {
  }

  /** Swapping the arguments of `compareVersion` swaps GREATER and LESS. */
  lemma CompareAntisymmetric(v1: Version, v2: Version)
    ensures CompareVersion(v1, v2).Value() == -CompareVersion(v2, v1).Value()
  {
  }
}

=== FILE: version_text.dfy ===
/** `Version::to_string` and `parseVersion`: the "major.minor.patch" text form.

    Parsing follows formatted extraction from a `std::istringstream`:
    `>> int` skips white space, takes an optional sign and a run of decimal
    digits; `>> char` skips white space and takes any one character, so the
    separator need not be a dot. A failed extraction sets failbit, an
    extraction that runs into the end of the text sets eofbit, and once either
    is set every later extraction does nothing. */
module VersionText {
  import opened Versions

  predicate IsDigit(c: char)
  {
    '0' <= c <= '9'
  }

  /** The characters `isspace` accepts in the "C" locale. */
  predicate IsSpace(c: char)
  {
    c == ' ' || 9 <= c as int <= 13
  }

  function DigitChar(d: nat): (c: char)
    requires d < 10
    ensures IsDigit(c)
  {
    ('0' as int + d) as char
  }

  function DigitValue(c: char): (d: nat)
    requires IsDigit(c)
    ensures d < 10 && DigitChar(d) == c
  {
    c as int - '0' as int
  }

  /** Decimal digits of n, most significant first, without leading zeros. */
  function NatToDecimal(n: nat): (r: string)
    ensures |r| > 0
    ensures forall i :: 0 <= i < |r| ==> IsDigit(r[i])
    decreases n
  {
    if n < 10 then [DigitChar(n)] else NatToDecimal(n / 10) + [DigitChar(n % 10)]
  }

  /** The number a run of decimal digits denotes. */
  function DigitsValue(ds: string): nat
    requires forall i :: 0 <= i < |ds| ==> IsDigit(ds[i])
    decreases |ds|
  {
    if |ds| == 0 then 0 else DigitsValue(ds[..|ds| - 1]) * 10 + DigitValue(ds[|ds| - 1])
  }

  /** `std::to_string(int)`: a minus sign for negatives, then the digits. */
  function IntToString(n: int): string
  {
    if n < 0 then "-" + NatToDecimal(-n) else NatToDecimal(n)
  }

  /** `Version::to_string`. Parsing its text back recovers every component,
      negative ones included. */
  function ToString(v: Version): (r: string)
    ensures ParseVersion(r) == ParsedVersion(Stored(v.major), Stored(v.minor), Stored(v.patch))
  {
    ParseWithSeparator(v, '.');
    IntToString(v.major as int) + "." + IntToString(v.minor as int) + "." + IntToString(v.patch as int)
  }

  /** The state of the string stream: unread text, and whether it is still good. */
  datatype Reader = Reader(rest: string, good: bool)

  /** What an `int` variable holds after an extraction: a stored value, or
      nothing stored (the variable stays uninitialised). */
  datatype Field = Stored(value: int32) | Indeterminate

  /** `parseVersion`'s three variables after the extraction chain. */
  datatype ParsedVersion = ParsedVersion(major: Field, minor: Field, patch: Field)

  function SkipSpaces(s: string): (r: string)
    ensures IsSuffix(r, s)
    ensures |r| > 0 ==> !IsSpace(r[0])
    ensures forall i :: 0 <= i < |s| - |r| ==> IsSpace(s[i])
    decreases |s|
  {
    if |s| > 0 && IsSpace(s[0]) then SkipSpaces(s[1..]) else s
  }

  /** Text holding nothing but white space, possibly nothing at all. */
  predicate Blank(s: string)
  {
    forall i :: 0 <= i < |s| ==> IsSpace(s[i])
  }

  /** What is left of a text after reading some of it from the front. */
  predicate IsSuffix(a: string, b: string)
  {
    |a| <= |b| && a == b[|b| - |a|..]
  }

  lemma SuffixTransitive(a: string, b: string, c: string)
    requires IsSuffix(a, b) && IsSuffix(b, c)
    ensures IsSuffix(a, c)
  {
    assert b[|b| - |a|..] == c[|c| - |a|..];
  }

  /** Length of the leading run of digits. */
  function DigitRun(s: string): (n: nat)
    ensures n <= |s|
    ensures forall i :: 0 <= i < n ==> IsDigit(s[i])
    ensures n < |s| ==> !IsDigit(s[n])
    decreases |s|
  {
    if |s| > 0 && IsDigit(s[0]) then 1 + DigitRun(s[1..]) else 0
  }

  const IntMax: int := 0x7FFF_FFFF
  const IntMin: int := -0x8000_0000

  function Signed(magnitude: nat, negative: bool): int
  {
    if negative then -(magnitude as int) else magnitude
  }

  /** The `int` stored for a converted value: the value itself when it fits,
      otherwise the nearest limit. */
  function Clamp(v: int): (c: int32)
    ensures IntMin <= v <= IntMax ==> c as int == v
    ensures v > IntMax ==> c as int == IntMax
    ensures v < IntMin ==> c as int == IntMin
  {
    if v > IntMax then IntMax as int32
    else if v < IntMin then IntMin as int32
    else v as int32
  }

  /** `stream >> x` for an `int` x. A failed stream stores nothing; white space
      up to the end fails with nothing stored; otherwise an optional sign and
      the digits after it are converted. */
  function ExtractInt(r: Reader): (res: (Field, Reader))
    ensures res.0.Indeterminate? <==> !r.good || Blank(r.rest)
    ensures !r.good ==> res.1 == r
    ensures res.0.Indeterminate? ==> !res.1.good
    ensures IsSuffix(res.1.rest, r.rest)
    ensures res.1.good ==> 0 < |res.1.rest| < |r.rest| && !IsDigit(res.1.rest[0])
    ensures r.good && !Blank(r.rest) ==>
      var t := SkipSpaces(r.rest);
      res == ExtractDigits(if t[0] == '-' || t[0] == '+' then t[1..] else t, t[0] == '-')
  {
    if !r.good then (Indeterminate, r)
    else
      var t := SkipSpaces(r.rest);
      BlankIffSkipsAll(r.rest);
      if |t| == 0 then (Indeterminate, Reader([], false))
      else
        var body := if t[0] == '-' || t[0] == '+' then t[1..] else t;
        SignStripped(r.rest);
        var res := ExtractDigits(body, t[0] == '-');
        SuffixTransitive(res.1.rest, body, r.rest);
        res
  }

  /** Skipping white space consumes everything exactly when the text is blank. */
  lemma BlankIffSkipsAll(s: string)
    ensures Blank(s) <==> |SkipSpaces(s)| == 0
  {
    var t := SkipSpaces(s);
    if |t| > 0 {
      assert s[|s| - |t|] == t[0];
    }
  }

  /** What follows the white space and an optional sign is still a suffix
      of the text. */
  lemma SignStripped(s: string)
    requires |SkipSpaces(s)| > 0
    ensures var t := SkipSpaces(s);
      IsSuffix(if t[0] == '-' || t[0] == '+' then t[1..] else t, s)
  {
    var t := SkipSpaces(s);
    SuffixTransitive(if t[0] == '-' || t[0] == '+' then t[1..] else t, t, s);
  }

  /** The conversion after the sign: no digits stores 0 and fails; a value
      outside `int` stores the nearest limit and fails; running into the end
      of the text sets eofbit. */
  function ExtractDigits(body: string, negative: bool): (res: (Field, Reader))
    ensures res.0.Stored?
    ensures IsSuffix(res.1.rest, body)
    ensures res.1.good ==> 0 < |res.1.rest| < |body| && !IsDigit(res.1.rest[0])
    ensures DigitRun(body) == 0 ==> res == (Stored(0), Reader(body, false))
    ensures var n := DigitRun(body);
      n > 0 ==>
        var v := Signed(DigitsValue(body[..n]), negative);
        && res.1.rest == body[n..]
        && res.0 == Stored(Clamp(v))
        && (res.1.good <==> IntMin <= v <= IntMax && n < |body|)
  {
    var n := DigitRun(body);
    if n == 0 then (Stored(0), Reader(body, false))
    else
      var v := Signed(DigitsValue(body[..n]), negative);
      var after := body[n..];
      (Stored(Clamp(v)), Reader(after, IntMin <= v <= IntMax && |after| > 0))
  }

  /** `stream >> c` for a `char` c whose value is not used afterwards. */
  function ExtractChar(r: Reader): (r': Reader)
    ensures !r.good ==> r' == r
    ensures r'.good <==> r.good && !Blank(r.rest)
    ensures r'.good ==>
      && |r'.rest| < |r.rest| && r'.rest == r.rest[|r.rest| - |r'.rest|..]
      && !IsSpace(r.rest[|r.rest| - |r'.rest| - 1])
      && forall i :: 0 <= i < |r.rest| - |r'.rest| - 1 ==> IsSpace(r.rest[i])
  {
    if !r.good then r
    else
      var t := SkipSpaces(r.rest);
      if |t| == 0 then Reader([], false) else Reader(t[1..], true)
  }

  /** `parseVersion`: `stream >> major >> dot >> minor >> dot >> patch`. */
  function ParseVersion(text: string): (r: ParsedVersion)
    ensures r.major.Indeterminate? <==> Blank(text)
    ensures r.major.Indeterminate? ==> r.minor.Indeterminate?
    ensures r.minor.Indeterminate? ==> r.patch.Indeterminate?
  {
    var (major, r1) := ExtractInt(Reader(text, true));
    var r2 := ExtractChar(r1);
    var (minor, r3) := ExtractInt(r2);
    var r4 := ExtractChar(r3);
    var (patch, _) := ExtractInt(r4);
    ParsedVersion(major, minor, patch)
  }

  /** Reading back the digits of n gives n. */
  lemma {:induction false} DigitsValueOfDecimal(n: nat)
    ensures DigitsValue(NatToDecimal(n)) == n
    decreases n
  {
    var ds := NatToDecimal(n);
    if n >= 10 {
      var prefix := NatToDecimal(n / 10);
      assert ds[..|ds| - 1] == prefix;
      DigitsValueOfDecimal(n / 10);
    }
  }

  /** A digit run followed by a non-digit (or nothing) is read whole. */
  lemma {:induction false} DigitRunOfDecimal(ds: string, rest: string)
    requires forall i :: 0 <= i < |ds| ==> IsDigit(ds[i])
    requires |rest| == 0 || !IsDigit(rest[0])
    ensures DigitRun(ds + rest) == |ds|
    decreases |ds|
  {
    if |ds| > 0 {
      assert (ds + rest)[1..] == ds[1..] + rest;
      DigitRunOfDecimal(ds[1..], rest);
    } else {
      assert ds + rest == rest;
    }
  }

  /** The digits of m followed by a non-digit convert to m (negated when a
      minus sign preceded them). */
  lemma ExtractDigitsOfDecimal(m: nat, negative: bool, rest: string)
    requires |rest| == 0 || !IsDigit(rest[0])
    requires IntMin <= Signed(m, negative) <= IntMax
    ensures ExtractDigits(NatToDecimal(m) + rest, negative)
            == (Stored(Signed(m, negative) as int32), Reader(rest, |rest| > 0))
  {
    var ds := NatToDecimal(m);
    DigitRunOfDecimal(ds, rest);
    assert (ds + rest)[..|ds|] == ds;
    assert (ds + rest)[|ds|..] == rest;
    DigitsValueOfDecimal(m);
  }

  /** `>> int` applied to the text `std::to_string` produced for n, followed
      by text that does not start with a digit, stores n and stops right
      after the digits; the stream stays good unless the text ended there. */
  lemma ExtractIntOfString(n: int32, rest: string)
    requires |rest| == 0 || !IsDigit(rest[0])
    ensures ExtractInt(Reader(IntToString(n as int) + rest, true)) == (Stored(n), Reader(rest, |rest| > 0))
  {
    if n < 0 {
      NegativeIntOfString(n, rest);
    } else {
      var text := IntToString(n as int) + rest;
      assert text == NatToDecimal(n as int) + rest;
      assert IsDigit(text[0]) && !IsSpace(text[0]);
      assert SkipSpaces(text) == text;
      assert ExtractInt(Reader(text, true)) == ExtractDigits(text, false);
      ExtractDigitsOfDecimal(n as int, false, rest);
    }
  }

  /** The negative case: the minus sign is taken, then the digits. */
  lemma NegativeIntOfString(n: int32, rest: string)
    requires n < 0
    requires |rest| == 0 || !IsDigit(rest[0])
    ensures ExtractInt(Reader(IntToString(n as int) + rest, true)) == (Stored(n), Reader(rest, |rest| > 0))
  {
    var text := IntToString(n as int) + rest;
    var m: nat := -(n as int);
    var ds := NatToDecimal(m);
    assert text == ['-'] + (ds + rest);
    assert text[0] == '-' && !IsSpace(text[0]);
    assert SkipSpaces(text) == text;
    assert text[1..] == ds + rest;
    assert ExtractInt(Reader(text, true)) == ExtractDigits(ds + rest, true);
    ExtractDigitsOfDecimal(m, true, rest);
  }

  /** `>> char` on text starting with a non-space character consumes exactly it. */
  lemma ExtractSeparator(c: char, rest: string)
    requires !IsSpace(c)
    ensures ExtractChar(Reader([c] + rest, true)) == Reader(rest, true)
  {
  }

  /** An integer written by `std::to_string` and then a separator: `>> int`
      stores the integer and `>> char` consumes the separator, leaving the
      stream good at the text after it. */
  lemma IntThenSeparator(n: int32, c: char, rest: string)
    requires !IsDigit(c) && !IsSpace(c)
    ensures ExtractInt(Reader(IntToString(n as int) + ([c] + rest), true)).0 == Stored(n)
    ensures ExtractChar(ExtractInt(Reader(IntToString(n as int) + ([c] + rest), true)).1) == Reader(rest, true)
  {
    ExtractIntOfString(n, [c] + rest);
    ExtractSeparator(c, rest);
  }

  /** `>> int` on exactly the text `std::to_string` produced stores the value. */
  lemma LastInt(n: int32)
    ensures ExtractInt(Reader(IntToString(n as int), true)).0 == Stored(n)
  {
    assert IntToString(n as int) + [] == IntToString(n as int);
    ExtractIntOfString(n, []);
  }

  /** `parseVersion` in terms of its five extractions: the two `>> int,
      >> char` pairs and the final `>> int`. */
  lemma ParseInSteps(text: string, major: Field, r2: Reader, minor: Field, r4: Reader, patch: Field)
    requires ExtractInt(Reader(text, true)).0 == major && ExtractChar(ExtractInt(Reader(text, true)).1) == r2
    requires ExtractInt(r2).0 == minor && ExtractChar(ExtractInt(r2).1) == r4
    requires ExtractInt(r4).0 == patch
    ensures ParseVersion(text) == ParsedVersion(major, minor, patch)
  {
  }

  /** The separators need not be dots: any character other than a digit or
      white space between the components is skipped. */
  lemma ParseWithSeparator(v: Version, c: char)
    requires !IsDigit(c) && !IsSpace(c)
    ensures ParseVersion(IntToString(v.major as int) + [c] + IntToString(v.minor as int) + [c] + IntToString(v.patch as int))
            == ParsedVersion(Stored(v.major), Stored(v.minor), Stored(v.patch))
  {
    var sMajor, sMinor, sPatch := IntToString(v.major as int), IntToString(v.minor as int), IntToString(v.patch as int);
    var afterMajor := sMinor + ([c] + sPatch);
    var text := sMajor + [c] + sMinor + [c] + sPatch;
    assert text == sMajor + ([c] + afterMajor);
    var r2, r4 := Reader(afterMajor, true), Reader(sPatch, true);
    assert ExtractInt(Reader(text, true)).0 == Stored(v.major) && ExtractChar(ExtractInt(Reader(text, true)).1) == r2 by {
      IntThenSeparator(v.major, c, afterMajor);
    }
    assert ExtractInt(r2).0 == Stored(v.minor) && ExtractChar(ExtractInt(r2).1) == r4 by {
      IntThenSeparator(v.minor, c, sPatch);
    }
    LastInt(v.patch);
    ParseInSteps(text, Stored(v.major), r2, Stored(v.minor), r4, Stored(v.patch));
  }

  /** Empty text leaves all three variables unset. */
  lemma ParseEmpty()
    ensures ParseVersion("") == ParsedVersion(Indeterminate, Indeterminate, Indeterminate)
  {
  }

  /** On "1.2", `>> major >> dot` stores 1 and leaves "2". */
  lemma MajorOfOnePointTwo()
    ensures ExtractInt(Reader("1.2", true)).0 == Stored(1)
    ensures ExtractChar(ExtractInt(Reader("1.2", true)).1) == Reader("2", true)
  {
    assert IntToString(1) == "1";
    assert "1.2" == IntToString(1) + (['.'] + "2");
    IntThenSeparator(1, '.', "2");
  }

  /** On "2", `>> minor` stores 2 and runs into the end of the text. */
  lemma MinorOfTwo()
    ensures ExtractInt(Reader("2", true)) == (Stored(2), Reader("", false))
  {
    assert IntToString(2) == "2";
    assert "2" == IntToString(2) + "";
    ExtractIntOfString(2, "");
  }

  /** Text that stops after the minor component leaves the patch unset: the
      minor extraction hits the end and the stream is no longer good. */
  lemma ParseMissingPatch()
    ensures ParseVersion("1.2") == ParsedVersion(Stored(1), Stored(2), Indeterminate)
  {
    MajorOfOnePointTwo();
    MinorOfTwo();
    ParseInSteps("1.2", Stored(1), Reader("2", true), Stored(2), Reader("", false), Indeterminate);
  }
}

=== FILE: zstd.dfy ===
/** The buffer handling around the Zstd library in `compressZstd` and
    `decompressZstd`. The library itself is a parameter: a `Backend` value
    whose functions stand for `ZSTD_createCCtx`, `ZSTD_compressBound`,
    `ZSTD_compress2` and `ZSTD_decompress`. */
module Zstd {
  import opened Errors
  import opened Streams

  /** What one library call reports: an error (its `ZSTD_getErrorName`), or a
      byte count together with the destination buffer as the call left it. */
  datatype Call = CallFailed(errorName: string) | CallDone(size: nat, dst: seq<byte>)

  /** The library: context creation succeeds or not, the worst-case bound for
      an input size, and the two codec calls taking (destination capacity, source). */
  datatype Backend = Backend(
    createContext: bool,
    compressBound: nat -> nat,
    compress2: (nat, seq<byte>) -> Call,
    decompress: (nat, seq<byte>) -> Call)

  /** The library keeps its size promises: a call writes at most its capacity
      into a buffer of exactly that capacity. */
  ghost predicate HonoursCapacity(z: Backend)
  {
    && (forall cap, src :: z.compress2(cap, src).CallDone? ==>
          z.compress2(cap, src).size <= cap && |z.compress2(cap, src).dst| == cap)
    && (forall cap, src :: z.decompress(cap, src).CallDone? ==>
          z.decompress(cap, src).size <= cap && |z.decompress(cap, src).dst| == cap)
  }

  /** Decompression inverts compression: the first `size` bytes a compression
      call reports decompress, at the original length, to the original input. */
  ghost predicate Inverts(z: Backend)
  {
    forall cap, src :: z.compress2(cap, src).CallDone? ==>
      var c := z.compress2(cap, src);
      c.size <= |c.dst| && z.decompress(|src|, c.dst[..c.size]) == CallDone(|src|, src)
  }

  /** `compressZstd(data, dataSize)`: allocate the bound, compress into it,
      fail on a backend error, then trim the buffer to the reported size. */
  function CompressZstd(z: Backend, data: seq<byte>, dataSize: nat): (r: Result<seq<byte>>)
    requires dataSize <= |data|
    ensures !z.createContext ==> r == Fail(ContextCreationFailed)
    ensures z.createContext ==>
      match z.compress2(z.compressBound(dataSize), data[..dataSize])
      case CallFailed(name) => r == Fail(CompressionFailed(name))
      case CallDone(n, dst) =>
        && r.Ok?
        && |r.value| == n
        && (n <= |dst| ==> r.value == dst[..n])
  {
    if !z.createContext then Fail(ContextCreationFailed)
    else
      var maxCompressedSize := z.compressBound(dataSize);
      match z.compress2(maxCompressedSize, data[..dataSize])
      case CallFailed(name) => Fail(CompressionFailed(name))
      case CallDone(compressedSize, compressed) => Ok(Resize(compressed, compressedSize))
  }

  /** With a library that keeps its size promises, the compressed buffer is
      never longer than the compress bound. */
  lemma CompressWithinBound(z: Backend, data: seq<byte>, dataSize: nat)
    requires dataSize <= |data| && HonoursCapacity(z)
    ensures CompressZstd(z, data, dataSize).Ok? ==>
      |CompressZstd(z, data, dataSize).value| <= z.compressBound(dataSize)
  {
  }

  /** `decompressZstd(data, compressedSize, expected)`: allocate exactly
      `expected` bytes and accept only when the backend reports exactly that
      many. */
  function DecompressZstd(z: Backend, data: seq<byte>, compressedSize: nat, expectedDecompressedSize: nat)
    : (r: Result<seq<byte>>)
    requires compressedSize <= |data|
    ensures r.Ok? ==> |r.value| == expectedDecompressedSize
    ensures match z.decompress(expectedDecompressedSize, data[..compressedSize])
      case CallFailed(name) => r == Fail(DecompressionFailed(name))
      case CallDone(actual, dst) =>
        && (r.Ok? <==> actual == expectedDecompressedSize)
        && (r.Fail? ==> r.error == DecompressionSizeMismatch)
        && (r.Ok? && expectedDecompressedSize <= |dst| ==> r.value == dst[..expectedDecompressedSize])
  {
    match z.decompress(expectedDecompressedSize, data[..compressedSize])
    case CallFailed(name) => Fail(DecompressionFailed(name))
    case CallDone(actualSize, decompressed) =>
      if actualSize != expectedDecompressedSize then Fail(DecompressionSizeMismatch)
      else Ok(Resize(decompressed, expectedDecompressedSize))
  }

  /** Round trip: when decompression inverts compression, decompressing the
      output of `CompressZstd` at the original size gives back the input. */
  lemma CompressThenDecompress(z: Backend, data: seq<byte>)
    requires Inverts(z)
    requires CompressZstd(z, data, |data|).Ok?
    ensures var c := CompressZstd(z, data, |data|).value;
            DecompressZstd(z, c, |c|, |data|) == Ok(data)
  {
    assert data[..|data|] == data;
    var call := z.compress2(z.compressBound(|data|), data);
    var c := CompressZstd(z, data, |data|).value;
    assert c == call.dst[..call.size];
    assert c[..|c|] == c;
  }

  /** A claimed size that differs from what the payload really decompresses to
      is always rejected. */
  lemma WrongExpectedSizeRejected(z: Backend, data: seq<byte>, expected: nat)
    requires Inverts(z)
    requires CompressZstd(z, data, |data|).Ok?
    requires expected != |data|
    requires var c := CompressZstd(z, data, |data|).value;
             z.decompress(expected, c).CallDone? ==> z.decompress(expected, c).size == |data|
    ensures var c := CompressZstd(z, data, |data|).value;
            DecompressZstd(z, c, |c|, expected).Fail?
  {
    var c := CompressZstd(z, data, |data|).value;
    assert c[..|c|] == c;
  }
}
